=== FILE: README.md ===
# Image selection editor — Dafny model

This project models the logic of a small browser image editor written as one React
component. The user loads a picture and draws a selection on a canvas. A selection is
freehand ("libre"), a rectangle or a circle ("cercle"). Releasing the mouse captures the
selected region as a layer. Layers are stacked and painted over the picture in order.
Two buttons brighten or darken every layer by a factor of 1.2 or 0.8. Two more buttons
enlarge or shrink the current selection outline by 10%.

The model has five modules:

- `Wrappers` (`wrappers.dfy`): `Option` and `Result`.
- `Pixels` (`pixels.dfy`): the RGBA buffer (`ImageData`) and the per-pixel brightness
  transform. `AdjustPixels` is the imperative stride-4 loop. `AdjustData` is its
  reference definition.
- `Canvas` (`canvas.dfy`): the canvas as a pixel grid. It models `putImageData` at the
  origin and the painting of layers in stack order.
- `Editor` (`editor.dfy`): the component's state hooks as one `State` record. Each
  handler is a pure transition. `Save`, `Stop` and `AdjustBrightness` return `Err`
  where the browser would throw. The redraw that `drawSelection`, `enlargeSelection`,
  `shrinkSelection` and `adjustBrightness` end with (lines 62, 119, 128, 155) is the
  separate `Redraw`. Its `Failed` result is that redraw throwing; the handler's state
  update still applies.
- `EditorLaws` (`editor_laws.dfy`): properties of event sequences. These cover drags,
  release followed by redraw, repeated brightness changes and resizing.

The browser calls that the model cannot see are parameters:

- `Math.sqrt` is `sqrt`. `Move` requires it to be a correct square root (`IsSqrt`).
- A `Uint8ClampedArray` rounds the values stored in it. The model uses `round`, of type
  `Rounding`: any function from a real to an integer less than 1 away. Floor, ceiling
  and round-half-to-even all qualify, so no JavaScript rounding mode is assumed.
- The canvas read that captures a selection is `extract: (Mode, Point, Size) -> ImageData`.
  In the source this is `getImageData`, or `clip` followed by `drawImage`.

Behaviours of the code that the model keeps:

- In freehand mode `saveSelection` (lines 70–92) captures nothing: neither branch of
  lines 75–87 runs, so `selectedImageData` stays `undefined`. That `undefined` is still
  pushed onto the layer stack and made the selected area. After that, every redraw
  throws (in `putImageData`, line 167) and so does every brightness change (reading
  `layer.width`, line 136). The model stores such an entry as `None`.
  `EditorLaws.FreehandReleaseBreaksStack` states the consequence.
- In rectangle mode `getImageData` (line 76) is called with the signed width and height
  of the drag. It truncates them toward zero and throws an `IndexSizeError` when either
  becomes 0. A click without a drag keeps the previous size, which is (0, 0, 0) at first,
  so such a click throws on release (`EditorLaws.ClickWithoutDragThrows`).
- The four `getImageData` arguments are WebIDL `[EnforceRange] long`s: a value outside
  the 32-bit range after truncation throws a `TypeError` before the zero check. The
  🔼 button (lines 113–118) has no cap, so repeated enlargement reaches that range
  (`EditorLaws.HugeRectangleThrows`).
- In circle mode `arc` (line 83) throws an `IndexSizeError` for a negative radius. The
  radius is never negative in practice (`EditorLaws.RadiusStaysNonNegative`), but the
  model keeps the check.
- `adjustBrightness` (lines 132–156) maps the current `layers` array, so each change
  transforms the bytes left by the previous one. The factor saved by `setBrightness` is
  not read back anywhere. Successive changes therefore compound, and clamping makes them
  irreversible (`Pixels.SaturationIsNotInvertible`).
- Every layer is put at the canvas origin: `putImageData(layer, 0, 0)` (line 167). A
  rectangle capture therefore appears at the top-left corner, not where it was taken.
- `putImageData` replaces pixels and does no blending, so transparent pixels of a layer
  replace what is under them too. A circle capture is canvas-sized and transparent
  outside the arc (lines 79–86). At the next redraw it therefore erases the picture and
  every earlier layer outside its circle. `Canvas.Put` states this pixel rule.
- The mode selector (line 190) only calls `setSelectionMode`. The path, start point and
  size of a selection in progress are kept.
- The code has no selection mask. Freehand selections are never rasterised, so there is
  no polygon fill rule to model.
- Releasing the mouse always saves, whether or not a drag was in progress (lines 65–68).
- Brightness changes do not update `selectedArea`, so it keeps the unadjusted buffer.

## Model

| member | source | states |
|---|---|---|
| `Pixels.AdjustPixels` | netlify/edge-functions/rewrite.js:145-150 | the stride-4 loop keeps the buffer length, leaves every alpha byte (offset 3 mod 4) unchanged, and sets every R, G, B byte to a byte within 1 of `clamp(v * factor, 0, 255)`; its result equals the reference transform `AdjustData` |
| `Pixels.Brighten` | netlify/edge-functions/rewrite.js:147-149 | a brightened colour byte always lies in [0, 255] and is within 1 of `max(0, min(255, v * factor))` |
| `Pixels.Clamp` | netlify/edge-functions/rewrite.js:147-149 | the clamped value lies in [0, 255], equals its input inside that range, and saturates to 0 or 255 outside it |
| `Pixels.Store` | netlify/edge-functions/rewrite.js:147-149 | a value written to the clamped byte array is a byte, and inside [0, 255] it is within 1 of the real assigned |
| `Pixels.AdjustImage` | netlify/edge-functions/rewrite.js:134-153 | adjusting one layer keeps its width, height and data length, copies alpha, and brightens every colour byte |
| `Pixels.StoreExact` | netlify/edge-functions/rewrite.js:147-149 | an integer byte stored in the clamped array is kept exactly, whatever the rounding |
| `Pixels.AdjustByOneIsIdentity` | netlify/edge-functions/rewrite.js:145-150 | a factor of 1 leaves every buffer of bytes unchanged |
| `Pixels.SaturationIsNotInvertible` | netlify/edge-functions/rewrite.js:145-150 | the pixel (220, 0, 0, 255) becomes (255, 0, 0, 255) under 1.2 and then (204, 0, 0, 255) under 0.8, not the original; one step of 0.96 gives red 211 or 212, so the two steps do not equal their product |
| `Pixels.ChannelExamples` | netlify/edge-functions/rewrite.js:147-149 | 200 × 0.8 is 160 and 200 × 1.2 is 240, both exact; 220 × 1.2 saturates to 255 |
| `Canvas.DrawImage` | netlify/edge-functions/rewrite.js:162-163 | after clearing and drawing the image at the origin, the canvas has the image's height and width and each pixel is the image's pixel at the same position |
| `Canvas.Put` | netlify/edge-functions/rewrite.js:167 | putting a layer at the origin keeps the canvas size, replaces every pixel the layer covers by the layer's pixel, and keeps every other pixel |
| `Canvas.PutAll` | netlify/edge-functions/rewrite.js:166-168 | painting the whole stack keeps the canvas dimensions |
| `Canvas.LaterLayerOnTop` | netlify/edge-functions/rewrite.js:166-168 | after the stack is painted in index order, a pixel shows the highest-index layer that covers it, or the underlying canvas when no layer does |
| `Editor.Start` | netlify/edge-functions/rewrite.js:40-47 | a press records the start point and sets drawing; in freehand mode the path becomes exactly the start point, otherwise the path is kept; nothing else changes |
| `Editor.Move` | netlify/edge-functions/rewrite.js:49-63 | a move while not drawing, or with no start point, changes nothing; in freehand mode it appends the pointer as the new last path point and keeps the earlier points; in the other modes it sets the signed width and height from the start point and a radius r ≥ 0 with r² = w² + h²; nothing else changes |
| `Editor.Initial` | netlify/edge-functions/rewrite.js:6-14 | the initial state has no image, freehand mode, no drawing, an empty path, no start point, a zero size, no selected area, an empty layer stack and brightness 1 |
| `Editor.ChooseMode` | netlify/edge-functions/rewrite.js:190 | choosing a mode sets the mode and keeps the image, drawing flag, path, start point, size, layers, selected area and brightness |
| `Editor.Save` | netlify/edge-functions/rewrite.js:70-92 | without an image nothing changes; otherwise exactly one entry is appended at the end of the layer stack, earlier layers are untouched, and the new entry is also the selected area: the extraction in rectangle or circle mode and `undefined` in freehand mode; it throws exactly when an image is loaded, the mode is not freehand, and either no selection was started (a null start point), or the mode is rectangle and a `getImageData` argument is outside the 32-bit `long` range or the width or height truncates to 0 (reported in that order), or the mode is circle and the radius is negative |
| `Editor.Stop` | netlify/edge-functions/rewrite.js:65-92 | a release clears the drawing flag and then saves: without an image only the flag changes; it throws in exactly the cases of `Save` and with the same fault: a null start point first, then for a rectangle an argument out of `long` range before a zero extent, and for a circle a negative radius; otherwise one entry is appended to the stack and made the selected area, and that entry is the extraction at the start point and size in rectangle or circle mode and `undefined` in freehand mode |
| `Editor.Enlarge` | netlify/edge-functions/rewrite.js:113-120 | width, height and radius are each multiplied by 1.1 and nothing else changes |
| `Editor.Shrink` | netlify/edge-functions/rewrite.js:122-129 | width, height and radius are each multiplied by 0.9 and nothing else changes |
| `Editor.AdjustBrightness` | netlify/edge-functions/rewrite.js:132-156 | it throws exactly when a stack entry is `undefined`; otherwise it records the factor and returns the same number of layers in the same order, each with its width and height and with its bytes transformed from its current bytes; nothing else changes |
| `Editor.Redraw` | netlify/edge-functions/rewrite.js:158-180 | without an image nothing is drawn; an `undefined` layer makes it throw; otherwise the canvas has the image's dimensions and the outline is the rectangle (start, width, height) or the circle (start, radius) of the current mode, and no outline in freehand mode or before any press |
| `EditorLaws.FreehandDragAppends` | netlify/edge-functions/rewrite.js:54-55 | a sequence of moves in freehand mode appends exactly those points, in arrival order, to the path and changes nothing else |
| `EditorLaws.FreehandStroke` | netlify/edge-functions/rewrite.js:44-55 | press then drag in freehand mode leaves the path equal to the press point followed by every move |
| `EditorLaws.ShapeDragFollowsLastPoint` | netlify/edge-functions/rewrite.js:56-60 | a rectangle or circle drag changes only the size, which is fixed by the last pointer position alone: width and height are its offset from the start point and the radius is the square root of w² + h², so non-negative |
| `EditorLaws.MovesIgnoredWhenIdle` | netlify/edge-functions/rewrite.js:50 | any sequence of moves when no drag is in progress leaves the state unchanged |
| `EditorLaws.EnlargeThenShrink` | netlify/edge-functions/rewrite.js:113-129 | enlarging then shrinking scales the size by 0.99, so it is not the identity when the width is non-zero |
| `EditorLaws.RepeatedEnlarge` | netlify/edge-functions/rewrite.js:113-120 | for every n, n enlargements multiply width, height and radius by 1.1^n and change nothing else |
| `EditorLaws.RepeatedShrink` | netlify/edge-functions/rewrite.js:122-129 | for every n, n shrinks multiply width, height and radius by 0.9^n and change nothing else |
| `EditorLaws.EnlargeThrice` | netlify/edge-functions/rewrite.js:113-120 | three enlargements take a width of 100 to 133.1 |
| `EditorLaws.RadiusStaysNonNegative` | netlify/edge-functions/rewrite.js:57-60 | the radius is 0 initially, and every handler keeps it non-negative |
| `EditorLaws.RedrawShowsTopmostLayer` | netlify/edge-functions/rewrite.js:162-168 | every pixel after a redraw shows the topmost layer that covers it, or the image where no layer does |
| `EditorLaws.SavedLayerIsOnTop` | netlify/edge-functions/rewrite.js:88-91 | after releasing a rectangle or circle selection whose capture does not throw, when no earlier stack entry is `undefined`, the next redraw succeeds, and every pixel the new capture covers shows the capture |
| `EditorLaws.ClickWithoutDragThrows` | netlify/edge-functions/rewrite.js:40-76 | in rectangle mode with an image, a press and release with no move in between, from a width or height that truncates to 0, throws an `IndexSizeError`, or a `TypeError` when the press point is outside the 32-bit range; the initial size is such a size |
| `EditorLaws.HugeRectangleThrows` | netlify/edge-functions/rewrite.js:76 | a rectangle release with a width or height of 2^31 or more throws the `long`-range `TypeError`, and still does after one more enlargement |
| `EditorLaws.FreehandReleaseBreaksStack` | netlify/edge-functions/rewrite.js:49-168 | releasing in freehand mode with an image succeeds, but then the next redraw, the next brightness change, and the redraws that end the next press-and-move, enlargement and shrink all throw on the `undefined` layer |
| `EditorLaws.BrightnessCompounds` | netlify/edge-functions/rewrite.js:134-139 | two brightness changes transform each layer's data by the first factor and then by the second |
| `EditorLaws.BrightnessOneKeepsLayers` | netlify/edge-functions/rewrite.js:132-156 | a factor of 1 on a stack without `undefined` entries only records the factor |

## Left out

- Loading a picture (`FileReader`, `Image`, `onload`, lines 16–27) and sizing the canvas
  to it (lines 29–38) are asynchronous browser I/O. The model starts from a state whose
  `image` is given; the canvas is assumed to have the image's dimensions.
- `applySelection` (lines 94–100) only clears the canvas and puts the selected area at
  the origin. It has no logic of its own.
- `zoomSelection` (lines 102–111) resizes the canvas to 1.5 times the selected area.
  After that the canvas no longer has the image's size, so the size stated by
  `Editor.Redraw` no longer matches the browser. The model keeps the canvas at the
  image's size.
- Canvas calls with a definition in the model: `drawImage(image, 0, 0)` at line 163 is
  `Canvas.DrawImage`, and `putImageData(layer, 0, 0)` at line 167 is `Canvas.Put`.
  Left out are the `drawImage` calls at lines 85 and 110, `clip` and `arc` masking, the
  pixel contents `getImageData` returns, the red 2px `strokeRect`/`arc` outline, and the
  alpha premultiplication a round trip through a canvas can apply. The outline is
  reported as data (`Outline`), not rasterised.
- Extraction is the parameter `extract`, a function of the mode, start point and size
  alone. In the browser it reads the live canvas (lines 76 and 85), which holds the
  picture, the layers and the red outline left by the last redraw. The model does not
  say which pixels a capture contains.
- The guard on a mounted canvas (`!canvasRef.current`) is always false once the component
  is on screen, and is not modelled.
- Converting a mouse event to canvas coordinates (`clientX - rect.left`) is browser
  layout. The handlers receive canvas coordinates.
- React scheduling is not modelled: batched updates and stale closures. For example,
  `drawSelection` and `adjustBrightness` redraw with the state from before their own
  updates. The model treats `Redraw` as a separate function of the state.
- When a handler throws after queuing a state update, the update still happens in the
  browser (`setDrawing(false)` before a failing save, `setBrightness` before a failing
  map). The model returns `Err` and does not describe that partial state. A failing
  redraw is likewise reported as `Failed` without the layers painted before the throw.
  `Move`, `Enlarge` and `Shrink` return their new state even when the redraw they end
  with throws (an `undefined` layer, line 167): the browser applies the update and then
  throws, and the model reports the throw as `Redraw` returning `Failed`.
- Floating-point arithmetic is modelled with exact reals: the products, `Math.sqrt`
  (a parameter) and the 1.1 / 0.9 scalings.
- The JSX markup (lines 182–205) is left out, apart from the mode selector's state
  update (`ChooseMode`).
- Pixels.Store: states only that the stored byte is within 1 of the assigned real, not
  round-half-to-even, because the rounding mode is a parameter.
- Pixels.Brighten: within 1 of the clamped product rather than its exact rounding, for
  the same reason.
- Pixels.AdjustPixels: requires a buffer length that is a multiple of 4. Every
  `ImageData` has such a length.
- Editor.Save: the throw condition leaves out `getImageData` failing to allocate a
  buffer (a `RangeError`) for a rectangle that fits the `long` range but is too large;
  that limit depends on the browser.
- Editor.Stop: the same allocation failure is left out, for the same reason.
- Editor.Move: the radius is specified only for a correct square root (`IsSqrt`).

=== FILE: canvas.dfy ===
/** What the on-screen canvas holds after a redraw.

    The canvas is a grid of RGBA pixels, one row per scan line. Drawing the
    base image fills it; `putImageData(layer, 0, 0)` then overwrites, with no
    blending, every pixel the layer covers, counting from the canvas origin.
    The layers are put one after another in stack order.
 */
module Canvas {
  import opened Pixels

  datatype Rgba = Rgba(r: int, g: int, b: int, a: int)

  type Grid = seq<seq<Rgba>>

  /** Every row of `g` is `width` pixels wide. */
  predicate Rectangular(g: Grid, width: nat) {
    forall y :: 0 <= y < |g| ==> |g[y]| == width
  }

  lemma PixelIndexInRange(w: nat, h: nat, x: nat, y: nat)
    requires x < w && y < h
    ensures 4 * (y * w + x) + 3 < 4 * w * h
  {
    var below: nat := h - y - 1;
    assert (y + 1) * w == y * w + w;
    assert h * w == (y + 1) * w + below * w;
    assert 0 <= below * w;
    assert w * h == h * w;
    assert 4 * w * h == 4 * (w * h);
  }

  /** Pixel (x, y) of a buffer: the four bytes starting at 4 * (y * width + x). */
  function PixelAt(img: ImageData, x: nat, y: nat): Rgba
    requires x < img.width && y < img.height
  {
    PixelIndexInRange(img.width, img.height, x, y);
    var i := 4 * (y * img.width + x);
    Rgba(img.data[i], img.data[i + 1], img.data[i + 2], img.data[i + 3])
  }

  /** Whether a layer put at the origin reaches pixel (x, y). */
  predicate Covers(layer: ImageData, x: nat, y: nat) {
    x < layer.width && y < layer.height
  }

  /** The canvas after it is sized to the image, cleared, and the image drawn
      at the origin: pixel for pixel the image. */
  function DrawImage(img: ImageData): (g: Grid)
    ensures |g| == img.height && Rectangular(g, img.width)
    ensures forall y, x :: 0 <= y < img.height && 0 <= x < img.width ==> g[y][x] == PixelAt(img, x, y)
  {
    seq(img.height, y requires 0 <= y < img.height =>
      seq(img.width, x requires 0 <= x < img.width => PixelAt(img, x, y)))
  }

  /** `putImageData(layer, 0, 0)`: covered pixels are replaced, the rest kept,
      the canvas keeps its size. */
  function Put(g: Grid, layer: ImageData): (r: Grid)
    ensures |r| == |g|
    ensures forall y :: 0 <= y < |g| ==> |r[y]| == |g[y]|
    ensures forall y, x :: 0 <= y < |g| && 0 <= x < |g[y]| ==>
      r[y][x] == (if Covers(layer, x, y) then PixelAt(layer, x, y) else g[y][x])
  {
    seq(|g|, y requires 0 <= y < |g| =>
      seq(|g[y]|, x requires 0 <= x < |g[y]| =>
        if Covers(layer, x, y) then PixelAt(layer, x, y) else g[y][x]))
  }

  /** `layers.forEach(layer => putImageData(layer, 0, 0))`: first layer first. */
  function PutAll(g: Grid, layers: seq<ImageData>): (r: Grid)
    ensures |r| == |g|
    ensures forall y :: 0 <= y < |g| ==> |r[y]| == |g[y]|
    decreases |layers|
  {
    if |layers| == 0 then g else PutAll(Put(g, layers[0]), layers[1..])
  }

  /** No layer after index `j` reaches pixel (x, y). */
  predicate NoneAbove(layers: seq<ImageData>, j: int, x: nat, y: nat) {
    forall k :: j < k < |layers| && 0 <= k ==> !Covers(layers[k], x, y)
  }

  /** Later layers are on top: a pixel shows the last layer that reaches it,
      or the underlying canvas when none does. */
  lemma {:induction false} LaterLayerOnTop(g: Grid, layers: seq<ImageData>, x: nat, y: nat)
    requires y < |g| && x < |g[y]|
    ensures forall j :: 0 <= j < |layers| && Covers(layers[j], x, y) && NoneAbove(layers, j, x, y) ==>
      PutAll(g, layers)[y][x] == PixelAt(layers[j], x, y)
    ensures NoneAbove(layers, -1, x, y) ==> PutAll(g, layers)[y][x] == g[y][x]
    decreases |layers|
  {
    if |layers| > 0 {
      var g1 := Put(g, layers[0]);
      var rest := layers[1..];
      LaterLayerOnTop(g1, rest, x, y);
      assert PutAll(g, layers) == PutAll(g1, rest);
      forall j | 0 <= j < |layers| && Covers(layers[j], x, y) && NoneAbove(layers, j, x, y)
        ensures PutAll(g, layers)[y][x] == PixelAt(layers[j], x, y)
      {
        if j == 0 {
          assert NoneAbove(rest, -1, x, y) by {
            forall k | 0 <= k < |rest| ensures !Covers(rest[k], x, y) {
              assert rest[k] == layers[k + 1];
            }
          }
        } else {
          assert rest[j - 1] == layers[j];
          assert NoneAbove(rest, j - 1, x, y) by {
            forall k | j - 1 < k < |rest| ensures !Covers(rest[k], x, y) {
              assert rest[k] == layers[k + 1];
            }
          }
        }
      }
      if NoneAbove(layers, -1, x, y) {
        assert !Covers(layers[0], x, y);
        assert NoneAbove(rest, -1, x, y) by {
          forall k | 0 <= k < |rest| ensures !Covers(rest[k], x, y) {
            assert rest[k] == layers[k + 1];
          }
        }
      }
    }
  }
}

=== FILE: editor.dfy ===
/** The editor's state and its event handlers.

    The React component keeps its state in separate hooks; here it is one
    record, and every handler is a pure function from the old record (plus the
    event's data) to the new one. `Save`, `Stop` and `AdjustBrightness`
    return `Err` with the reason where they would throw in the browser. The
    redraw that `drawSelection`, `enlargeSelection`, `shrinkSelection` and
    `adjustBrightness` end with is the separate `Redraw`: a `Failed` result
    there is that redraw throwing, and the handler's state update still
    applies. Calls into the browser that this model cannot
    see are parameters: the square root used for the circle radius, the
    rounding done by a `Uint8ClampedArray`, and the canvas read that captures a
    selection (`extract`).
 */
module Editor {
  import opened Wrappers
  import opened Pixels
  import opened Canvas

  /** The three selection modes, named as in the source. */
  datatype Mode = Libre | Rectangle | Cercle

  /** A pointer position in canvas coordinates. */
  datatype Point = Point(x: real, y: real)

  /** Rectangle extent (signed: negative when dragged left or up) and circle radius. */
  datatype Size = Size(width: real, height: real, radius: real)

  /** Why a handler throws: the first three are `TypeError`s in the browser,
      the last two `DOMException`s named `IndexSizeError`. */
  datatype Fault =
    | NullStartPos    // `startPos.x` read while no selection was ever started
    | UndefinedLayer  // a stack entry that is `undefined` used as an ImageData
    | OutOfLongRange  // a `getImageData` argument outside the 32-bit `long` range
    | ZeroExtent      // `getImageData` asked for a width or height of 0
    | NegativeRadius  // `arc` given a negative radius

  /** The canvas read that captures a selection: `getImageData` of the
      rectangle, or the whole canvas clipped to the circle. */
  type Extractor = (Mode, Point, Size) -> ImageData

  datatype State = State(
    image: Option<ImageData>,           // the loaded picture, if any
    mode: Mode,
    drawing: bool,
    path: seq<Point>,                   // freehand points in drawing order
    startPos: Option<Point>,
    size: Size,
    selectedArea: Option<ImageData>,    // None is `null` or `undefined`
    layers: seq<Option<ImageData>>,     // None is an `undefined` entry
    brightness: real)

  /** The hooks' initial values: no picture, freehand mode, not drawing, no
      selection, an empty stack and brightness 1. */
  function Initial(): (s: State)
    ensures s.image.None? && !s.drawing && s.path == [] && s.startPos.None?
    ensures s.size == Size(0.0, 0.0, 0.0) && s.selectedArea.None? && s.layers == []
    ensures s.mode == Libre && s.brightness == 1.0
  {
    State(None, Libre, false, [], None, Size(0.0, 0.0, 0.0), None, [], 1.0)
  }

  /** A correct `Math.sqrt` on the non-negative reals. */
  ghost predicate IsSqrt(sqrt: real -> real) {
    forall x: real :: 0.0 <= x ==> 0.0 <= sqrt(x) && sqrt(x) * sqrt(x) == x
  }

  /** `startSelection`: remember the press point and start drawing; in freehand
      mode the path restarts from that single point. */
  function Start(s: State, p: Point): (r: State)
    ensures r.startPos == Some(p) && r.drawing
    ensures s.mode == Libre ==> r.path == [p]
    ensures s.mode != Libre ==> r.path == s.path
    ensures r.(startPos := s.startPos, drawing := s.drawing, path := s.path) == s
  {
    var withStart := s.(startPos := Some(p));
    var withPath := if s.mode == Libre then withStart.(path := [p]) else withStart;
    withPath.(drawing := true)
  }

  /** Whether a pointer move changes the selection. */
  predicate Tracking(s: State) {
    s.drawing && s.startPos.Some?
  }

  /** The squared length of the vector (w, h). */
  function SqNorm(w: real, h: real): real {
    w * w + h * h
  }

  /** `drawSelection`: ignored unless drawing from a start point; otherwise
      freehand mode appends the pointer to the path, and the other modes set
      the signed extent from the start point and the radius to its length. */
  function Move(s: State, p: Point, sqrt: real -> real): (r: State)
    requires IsSqrt(sqrt)
    ensures !Tracking(s) ==> r == s
    ensures Tracking(s) && s.mode == Libre ==>
      && r == s.(path := r.path)
      && |r.path| == |s.path| + 1
      && r.path[..|s.path|] == s.path
      && r.path[|s.path|] == p
    ensures Tracking(s) && s.mode != Libre ==>
      && r == s.(size := r.size)
      && r.size.width == p.x - s.startPos.value.x
      && r.size.height == p.y - s.startPos.value.y
      && 0.0 <= r.size.radius
      && r.size.radius * r.size.radius == r.size.width * r.size.width + r.size.height * r.size.height
  {
    if !Tracking(s) then s
    else if s.mode == Libre then s.(path := s.path + [p])
    else
      var w := p.x - s.startPos.value.x;
      var h := p.y - s.startPos.value.y;
      s.(size := Size(w, h, sqrt(SqNorm(w, h))))
  }

  /** The mode selector: only the mode changes. The path, start point and size
      of a selection in progress are kept. */
  function ChooseMode(s: State, m: Mode): (r: State)
    ensures r.mode == m
    ensures r.drawing == s.drawing && r.path == s.path && r.startPos == s.startPos && r.size == s.size
    ensures r.layers == s.layers && r.selectedArea == s.selectedArea
    ensures r.image == s.image && r.brightness == s.brightness
  {
    s.(mode := m)
  }

  /** The captured area becomes the selection and the new top of the stack. */
  function Push(s: State, area: Option<ImageData>): State {
    s.(selectedArea := area, layers := s.layers + [area])
  }

  /** `getImageData` converts its width and height to integers by truncation
      toward zero and throws when either becomes 0. */
  predicate ZeroArea(z: Size) {
    -1.0 < z.width < 1.0 || -1.0 < z.height < 1.0
  }

  /** A WebIDL `[EnforceRange] long` conversion accepts `v`: after truncation
      toward zero it lies in [-2^31, 2^31 - 1]. */
  predicate FitsLong(v: real) {
    -2147483649.0 < v < 2147483648.0
  }

  /** All four arguments of `getImageData(p.x, p.y, z.width, z.height)` convert. */
  predicate LongArgs(p: Point, z: Size) {
    FitsLong(p.x) && FitsLong(p.y) && FitsLong(z.width) && FitsLong(z.height)
  }

  /** Whether capturing from start point `p` with size `z` throws: a rectangle
      whose `getImageData` arguments do not convert or whose width or height
      truncates to 0, or a circle whose `arc` radius is negative. */
  predicate CaptureThrows(m: Mode, p: Point, z: Size) {
    || (m == Rectangle && (!LongArgs(p, z) || ZeroArea(z)))
    || (m == Cercle && z.radius < 0.0)
  }

  /** Whether saving the selection of `s` throws. */
  predicate SaveThrows(s: State) {
    && s.image.Some?
    && s.mode != Libre
    && (s.startPos.None? || CaptureThrows(s.mode, s.startPos.value, s.size))
  }

  /** `saveSelection`: without an image nothing happens. Otherwise one entry
      is pushed on the layer stack and also becomes the selected area: the
      captured canvas region in rectangle and circle mode, and `undefined` in
      freehand mode, which captures nothing. Reading the start point of a
      selection never started throws. The arguments of the rectangle's
      `getImageData` are converted first, left to right, and then its width and
      height checked; the circle's `arc` rejects a negative radius. Nothing is
      pushed when it throws. */
  function Save(s: State, extract: Extractor): (r: Result<State, Fault>)
    ensures s.image.None? ==> r == Ok(s)
    ensures r.Err? <==> SaveThrows(s)
    ensures r.Err? && s.startPos.None? ==> r.error == NullStartPos
    ensures r.Err? && s.startPos.Some? && s.mode == Rectangle ==>
      r.error == (if LongArgs(s.startPos.value, s.size) then ZeroExtent else OutOfLongRange)
    ensures r.Err? && s.startPos.Some? && s.mode == Cercle ==> r.error == NegativeRadius
    ensures r.Ok? && s.image.Some? ==>
      && r.value == s.(selectedArea := r.value.selectedArea, layers := r.value.layers)
      && |r.value.layers| == |s.layers| + 1
      && r.value.layers[..|s.layers|] == s.layers
      && r.value.layers[|s.layers|] == r.value.selectedArea
    ensures r.Ok? && s.image.Some? && s.mode != Libre ==>
      r.value.selectedArea == Some(extract(s.mode, s.startPos.value, s.size))
    ensures r.Ok? && s.image.Some? && s.mode == Libre ==> r.value.selectedArea.None?
  {
    if s.image.None? then Ok(s)
    else if s.mode == Libre then Ok(Push(s, None))
    else if s.startPos.None? then Err(NullStartPos)
    else if s.mode == Rectangle && !LongArgs(s.startPos.value, s.size) then Err(OutOfLongRange)
    else if s.mode == Rectangle && ZeroArea(s.size) then Err(ZeroExtent)
    else if s.mode == Cercle && s.size.radius < 0.0 then Err(NegativeRadius)
    else Ok(Push(s, Some(extract(s.mode, s.startPos.value, s.size))))
  }

  /** `stopSelection`: stop drawing, then save. It does not look at whether a
      drag was in progress, so every release saves. */
  function Stop(s: State, extract: Extractor): (r: Result<State, Fault>)
    ensures r.Ok? ==> !r.value.drawing
    ensures s.image.None? ==> r == Ok(s.(drawing := false))
    ensures r.Err? <==> SaveThrows(s)
    ensures r.Err? && s.startPos.None? ==> r.error == NullStartPos
    ensures r.Err? && s.startPos.Some? && s.mode == Rectangle ==>
      r.error == (if LongArgs(s.startPos.value, s.size) then ZeroExtent else OutOfLongRange)
    ensures r.Err? && s.startPos.Some? && s.mode == Cercle ==> r.error == NegativeRadius
    ensures r.Ok? && s.image.Some? ==>
      && r.value == s.(drawing := false, selectedArea := r.value.selectedArea, layers := r.value.layers)
      && |r.value.layers| == |s.layers| + 1
      && r.value.layers[..|s.layers|] == s.layers
      && r.value.layers[|s.layers|] == r.value.selectedArea
    ensures r.Ok? && s.image.Some? && s.mode != Libre ==>
      r.value.selectedArea == Some(extract(s.mode, s.startPos.value, s.size))
    ensures r.Ok? && s.image.Some? && s.mode == Libre ==> r.value.selectedArea.None?
  {
    Save(s.(drawing := false), extract)
  }

  function Scale(z: Size, k: real): Size {
    Size(z.width * k, z.height * k, z.radius * k)
  }

  /** `enlargeSelection`: the three size figures grow by 10%, nothing else changes. */
  function Enlarge(s: State): (r: State)
    ensures r == s.(size := r.size)
    ensures r.size.width == s.size.width * 1.1
    ensures r.size.height == s.size.height * 1.1
    ensures r.size.radius == s.size.radius * 1.1
  {
    s.(size := Scale(s.size, 1.1))
  }

  /** `shrinkSelection`: the three size figures shrink by 10%, nothing else changes. */
  function Shrink(s: State): (r: State)
    ensures r == s.(size := r.size)
    ensures r.size.width == s.size.width * 0.9
    ensures r.size.height == s.size.height * 0.9
    ensures r.size.radius == s.size.radius * 0.9
  {
    s.(size := Scale(s.size, 0.9))
  }

  /** No stack entry is `undefined`. */
  predicate AllDefined(layers: seq<Option<ImageData>>) {
    forall i :: 0 <= i < |layers| ==> layers[i].Some?
  }

  /** The stack's buffers, once none is `undefined`. */
  function Defined(layers: seq<Option<ImageData>>): (r: seq<ImageData>)
    requires AllDefined(layers)
    ensures |r| == |layers|
    ensures forall i :: 0 <= i < |layers| ==> layers[i] == Some(r[i])
  {
    seq(|layers|, i requires 0 <= i < |layers| => layers[i].value)
  }

  /** `adjustBrightness`: records the factor and replaces every layer, in
      order, by its adjusted copy; the copy is made from the layer as it is
      now, so successive calls compound. An `undefined` entry throws. */
  function AdjustBrightness(s: State, factor: real, round: Rounding): (r: Result<State, Fault>)
    ensures r.Err? <==> !AllDefined(s.layers)
    ensures r.Err? ==> r.error == UndefinedLayer
    ensures r.Ok? ==>
      && r.value == s.(brightness := factor, layers := r.value.layers)
      && |r.value.layers| == |s.layers|
      && forall i :: 0 <= i < |s.layers| ==>
        && r.value.layers[i].Some?
        && r.value.layers[i].value.width == s.layers[i].value.width
        && r.value.layers[i].value.height == s.layers[i].value.height
        && r.value.layers[i].value.data == AdjustData(round, s.layers[i].value.data, factor)
  {
    if !AllDefined(s.layers) then Err(UndefinedLayer)
    else
      var adjusted := seq(|s.layers|, i requires 0 <= i < |s.layers| =>
        Some(AdjustImage(round, s.layers[i].value, factor)));
      Ok(s.(brightness := factor, layers := adjusted))
  }

  /** The selection outline stroked over the layers. */
  datatype Outline =
    | NoOutline
    | RectOutline(origin: Point, width: real, height: real)
    | CircleOutline(center: Point, radius: real)

  /** What a redraw leaves: nothing (no image), a thrown error, or a canvas
      with the outline to stroke on top. */
  datatype Paint = Skipped | Failed(fault: Fault) | Painted(pixels: Grid, outline: Outline)

  function OutlineOf(s: State): Outline {
    if s.startPos.None? then NoOutline
    else match s.mode
      case Rectangle => RectOutline(s.startPos.value, s.size.width, s.size.height)
      case Cercle => CircleOutline(s.startPos.value, s.size.radius)
      case Libre => NoOutline
  }

  /** `redrawCanvas`: the image, then every layer in stack order from the
      canvas origin, then the outline of the current rectangle or circle. */
  function Redraw(s: State): (r: Paint)
    ensures r.Skipped? <==> s.image.None?
    ensures r.Failed? <==> s.image.Some? && !AllDefined(s.layers)
    ensures r.Failed? ==> r.fault == UndefinedLayer
    ensures r.Painted? ==>
      && |r.pixels| == s.image.value.height
      && Rectangular(r.pixels, s.image.value.width)
    ensures r.Painted? ==> (r.outline.NoOutline? <==> s.startPos.None? || s.mode == Libre)
    ensures r.Painted? && r.outline.RectOutline? ==>
      s.mode == Rectangle && r.outline == RectOutline(s.startPos.value, s.size.width, s.size.height)
    ensures r.Painted? && r.outline.CircleOutline? ==>
      s.mode == Cercle && r.outline == CircleOutline(s.startPos.value, s.size.radius)
  {
    if s.image.None? then Skipped
    else if !AllDefined(s.layers) then Failed(UndefinedLayer)
    else Painted(PutAll(DrawImage(s.image.value), Defined(s.layers)), OutlineOf(s))
  }
}

=== FILE: editor_laws.dfy ===
/** Properties of sequences of editor events. */
module EditorLaws {
  import opened Wrappers
  import opened Pixels
  import opened Canvas
  import opened Editor

  /** Pointer moves applied in arrival order. */
  function Moves(s: State, ps: seq<Point>, sqrt: real -> real): State
    requires IsSqrt(sqrt)
    decreases |ps|
  {
    if |ps| == 0 then s else Moves(Move(s, ps[0], sqrt), ps[1..], sqrt)
  }

  /** A freehand drag appends the pointer positions, in order, to the path and
      changes nothing else. */
  lemma {:induction false} FreehandDragAppends(s: State, ps: seq<Point>, sqrt: real -> real)
    requires IsSqrt(sqrt)
    requires Tracking(s) && s.mode == Libre
    ensures Moves(s, ps, sqrt) == s.(path := s.path + ps)
    decreases |ps|
  {
    if |ps| > 0 {
      var s1 := Move(s, ps[0], sqrt);
      FreehandDragAppends(s1, ps[1..], sqrt);
      assert s1.path + ps[1..] == s.path + ps;
    }
  }

  /** Press then drag in freehand mode: the path is the press point followed by
      every move, in order. */
  lemma FreehandStroke(s: State, p: Point, ps: seq<Point>, sqrt: real -> real)
    requires IsSqrt(sqrt)
    requires s.mode == Libre
    ensures Moves(Start(s, p), ps, sqrt).path == [p] + ps
    ensures Moves(Start(s, p), ps, sqrt).startPos == Some(p)
  {
    FreehandDragAppends(Start(s, p), ps, sqrt);
  }

  /** A rectangle or circle drag: only the size changes, and it is determined
      by the last pointer position alone. */
  lemma {:induction false} ShapeDragFollowsLastPoint(s: State, ps: seq<Point>, sqrt: real -> real)
    requires IsSqrt(sqrt)
    requires Tracking(s) && s.mode != Libre && |ps| > 0
    ensures var r := Moves(s, ps, sqrt);
      var w := ps[|ps| - 1].x - s.startPos.value.x;
      var h := ps[|ps| - 1].y - s.startPos.value.y;
      && r == s.(size := r.size)
      && r.size == Size(w, h, sqrt(SqNorm(w, h)))
      && 0.0 <= r.size.radius
    decreases |ps|
  {
    var s1 := Move(s, ps[0], sqrt);
    if |ps| > 1 {
      ShapeDragFollowsLastPoint(s1, ps[1..], sqrt);
      assert ps[1..][|ps[1..]| - 1] == ps[|ps| - 1];
    }
  }

  /** Moves that arrive when no drag is in progress are all ignored. */
  lemma {:induction false} MovesIgnoredWhenIdle(s: State, ps: seq<Point>, sqrt: real -> real)
    requires IsSqrt(sqrt)
    requires !Tracking(s)
    ensures Moves(s, ps, sqrt) == s
    decreases |ps|
  {
    if |ps| > 0 {
      MovesIgnoredWhenIdle(Move(s, ps[0], sqrt), ps[1..], sqrt);
    }
  }

  /** Enlarge and shrink are not inverses: together they scale by 0.99. */
  lemma EnlargeThenShrink(s: State)
    ensures Shrink(Enlarge(s)) == s.(size := Size(s.size.width * 0.99, s.size.height * 0.99, s.size.radius * 0.99))
    ensures s.size.width != 0.0 ==> Shrink(Enlarge(s)) != s
  {
  }

  /** `k` raised to the power `n`. */
  function Pow(k: real, n: nat): real {
    if n == 0 then 1.0 else Pow(k, n - 1) * k
  }

  /** The enlarge button pressed `n` times. */
  function Enlarges(s: State, n: nat): State {
    if n == 0 then s else Enlarge(Enlarges(s, n - 1))
  }

  /** The shrink button pressed `n` times. */
  function Shrinks(s: State, n: nat): State {
    if n == 0 then s else Shrink(Shrinks(s, n - 1))
  }

  /** Scaling twice is scaling once by the product. */
  lemma ScaleTwice(z: Size, a: real, b: real)
    ensures Scale(Scale(z, a), b) == Scale(z, a * b)
  {
    assert z.width * a * b == z.width * (a * b);
    assert z.height * a * b == z.height * (a * b);
    assert z.radius * a * b == z.radius * (a * b);
  }

  /** `n` enlargements scale the three size figures by 1.1^n; nothing else
      changes. */
  lemma {:induction false} RepeatedEnlarge(s: State, n: nat)
    ensures Enlarges(s, n) == s.(size := Scale(s.size, Pow(1.1, n)))
  {
    if n > 0 {
      RepeatedEnlarge(s, n - 1);
      ScaleTwice(s.size, Pow(1.1, n - 1), 1.1);
    }
  }

  /** `n` shrinks scale the three size figures by 0.9^n; nothing else
      changes. */
  lemma {:induction false} RepeatedShrink(s: State, n: nat)
    ensures Shrinks(s, n) == s.(size := Scale(s.size, Pow(0.9, n)))
  {
    if n > 0 {
      RepeatedShrink(s, n - 1);
      ScaleTwice(s.size, Pow(0.9, n - 1), 0.9);
    }
  }

  /** Three enlargements of a 100-wide selection give width 133.1. */
  lemma EnlargeThrice(s: State)
    requires s.size.width == 100.0
    ensures Enlarges(s, 3).size.width == 133.1
  {
    RepeatedEnlarge(s, 3);
  }

  /** The radius is never negative: it starts at 0, moves set it to a square
      root, and enlarge / shrink scale it by a positive factor. */
  ghost predicate RadiusOk(s: State) {
    0.0 <= s.size.radius
  }

  lemma RadiusStaysNonNegative(s: State, p: Point, m: Mode, extract: Extractor, factor: real,
                               round: Rounding, sqrt: real -> real)
    requires IsSqrt(sqrt)
    requires RadiusOk(s)
    ensures RadiusOk(Initial())
    ensures RadiusOk(Start(s, p)) && RadiusOk(Move(s, p, sqrt)) && RadiusOk(ChooseMode(s, m))
    ensures RadiusOk(Enlarge(s)) && RadiusOk(Shrink(s))
    ensures Stop(s, extract).Ok? ==> RadiusOk(Stop(s, extract).value)
    ensures AdjustBrightness(s, factor, round).Ok? ==> RadiusOk(AdjustBrightness(s, factor, round).value)
  {
  }

  /** Redrawing shows, at every pixel, the last layer of the stack that
      reaches it, or the image where no layer does. */
  lemma RedrawShowsTopmostLayer(s: State, x: nat, y: nat)
    requires Redraw(s).Painted?
    requires x < s.image.value.width && y < s.image.value.height
    ensures var shown := Redraw(s).pixels[y][x];
      var stack := Defined(s.layers);
      && (forall j :: 0 <= j < |stack| && Covers(stack[j], x, y) && NoneAbove(stack, j, x, y) ==>
            shown == PixelAt(stack[j], x, y))
      && (NoneAbove(stack, -1, x, y) ==> shown == PixelAt(s.image.value, x, y))
  {
    var base := DrawImage(s.image.value);
    LaterLayerOnTop(base, Defined(s.layers), x, y);
  }

  /** Releasing a rectangle or circle selection puts its capture on top: after
      the next redraw every pixel the capture reaches shows the capture. */
  lemma SavedLayerIsOnTop(s: State, extract: Extractor, x: nat, y: nat)
    requires s.image.Some? && s.mode != Libre && s.startPos.Some? && AllDefined(s.layers)
    requires !CaptureThrows(s.mode, s.startPos.value, s.size)
    requires x < s.image.value.width && y < s.image.value.height
    requires Covers(extract(s.mode, s.startPos.value, s.size), x, y)
    ensures Stop(s, extract).Ok?
    ensures Redraw(Stop(s, extract).value).Painted?
    ensures Redraw(Stop(s, extract).value).pixels[y][x] == PixelAt(extract(s.mode, s.startPos.value, s.size), x, y)
  {
    var s1 := Stop(s, extract).value;
    var top := extract(s.mode, s.startPos.value, s.size);
    assert s1.layers == s.layers + [Some(top)];
    assert AllDefined(s1.layers);
    var stack := Defined(s1.layers);
    assert stack[|stack| - 1] == top;
    RedrawShowsTopmostLayer(s1, x, y);
  }

  /** A click without a drag in rectangle mode, from a size whose width or
      height truncates to 0 (the initial size, for one), throws on release and
      pushes nothing: for a zero extent unless an argument is already out of
      range. */
  lemma ClickWithoutDragThrows(s: State, p: Point, extract: Extractor)
    requires s.image.Some? && s.mode == Rectangle && ZeroArea(s.size)
    ensures Stop(Start(s, p), extract) == Err(if LongArgs(p, s.size) then ZeroExtent else OutOfLongRange)
    ensures ZeroArea(Initial().size)
  {
  }

  /** Enlargement has no cap, so a rectangle grown to 2^31 pixels or more no
      longer converts to a `long` and its release throws. */
  lemma HugeRectangleThrows(s: State, extract: Extractor)
    requires s.image.Some? && s.mode == Rectangle && s.startPos.Some?
    requires 2147483648.0 <= s.size.width || 2147483648.0 <= s.size.height
    ensures Stop(s, extract) == Err(OutOfLongRange)
    ensures Stop(Enlarge(s), extract) == Err(OutOfLongRange)
  {
  }

  /** Releasing in freehand mode pushes `undefined`; from then on every redraw
      and every brightness change throws, including the redraws that end the
      next drag move, enlargement and shrink. */
  lemma FreehandReleaseBreaksStack(s: State, extract: Extractor, factor: real, round: Rounding,
                                   p: Point, q: Point, sqrt: real -> real)
    requires IsSqrt(sqrt)
    requires s.image.Some? && s.mode == Libre
    ensures Stop(s, extract).Ok?
    ensures Redraw(Stop(s, extract).value) == Failed(UndefinedLayer)
    ensures AdjustBrightness(Stop(s, extract).value, factor, round) == Err(UndefinedLayer)
    ensures Redraw(Move(Start(Stop(s, extract).value, p), q, sqrt)) == Failed(UndefinedLayer)
    ensures Redraw(Enlarge(Stop(s, extract).value)) == Failed(UndefinedLayer)
    ensures Redraw(Shrink(Stop(s, extract).value)) == Failed(UndefinedLayer)
  {
    var s1 := Stop(s, extract).value;
    assert s1.layers[|s.layers|].None?;
  }

  /** Two brightness changes act on the already-adjusted layers. */
  lemma BrightnessCompounds(s: State, f1: real, f2: real, round: Rounding)
    requires AllDefined(s.layers)
    ensures AdjustBrightness(s, f1, round).Ok?
    ensures var s1 := AdjustBrightness(s, f1, round).value;
      && AdjustBrightness(s1, f2, round).Ok?
      && var s2 := AdjustBrightness(s1, f2, round).value;
      && s2.brightness == f2
      && |s2.layers| == |s.layers|
      && forall i :: 0 <= i < |s.layers| ==>
        s2.layers[i].value.data == AdjustData(round, AdjustData(round, s.layers[i].value.data, f1), f2)
  {
  }

  /** A factor of 1 leaves every layer as it is. */
  lemma BrightnessOneKeepsLayers(s: State, round: Rounding)
    requires AllDefined(s.layers)
    ensures AdjustBrightness(s, 1.0, round) == Ok(s.(brightness := 1.0))
  {
    var r := AdjustBrightness(s, 1.0, round).value;
    forall i | 0 <= i < |s.layers|
      ensures r.layers[i] == s.layers[i]
    {
      AdjustByOneIsIdentity(round, s.layers[i].value.data);
      assert r.layers[i].value.data == s.layers[i].value.data;
    }
    assert r.layers == s.layers;
  }
}

=== FILE: pixels.dfy ===
/** Pixel buffers and the per-pixel brightness transform.

    An `ImageData` is the canvas API's RGBA buffer: `width`, `height` and a flat
    row-major array of bytes, four per pixel (red, green, blue, alpha). The
    brightness transform walks that array with a stride of four, scales the three
    colour bytes by a real factor, clamps them to [0, 255] and leaves alpha alone.
 */
module Pixels {

  /** A raw buffer; `ImageData` below adds the invariants the canvas API keeps. */
  datatype Bitmap = Bitmap(width: nat, height: nat, data: seq<int>)

  predicate IsByte(v: int) {
    0 <= v <= 255
  }

  /** A non-empty picture, four bytes per pixel, every entry a byte (a
      `Uint8ClampedArray`); the browser never builds an `ImageData` with a
      zero width or height. */
  predicate WellFormed(b: Bitmap) {
    && 0 < b.width && 0 < b.height
    && |b.data| == 4 * b.width * b.height
    && forall k :: 0 <= k < |b.data| ==> IsByte(b.data[k])
  }

  type ImageData = b: Bitmap | WellFormed(b) witness Bitmap(1, 1, [0, 0, 0, 0])

  /** Offset 3 of every four-byte group is the alpha channel. */
  predicate IsAlpha(k: int) {
    k % 4 == 3
  }

  /** Any conversion from a real to one of its two neighbouring integers.
      Storing a non-integer into a `Uint8ClampedArray` rounds it; the model
      fixes no particular rounding mode, only that the stored integer is
      within distance 1 of the real (floor, ceiling and half-to-even all are).
   */
  ghost predicate IsRounding(f: real -> int) {
    forall x: real :: x - 1.0 < f(x) as real < x + 1.0
  }

  type Rounding = f: real -> int | IsRounding(f) witness (x: real) => x.Floor

  function Min(a: real, b: real): real {
    if a <= b then a else b
  }

  function Max(a: real, b: real): real {
    if a >= b then a else b
  }

  /** `Math.max(0, Math.min(255, x))`. */
  function Clamp(x: real): (r: real)
    ensures 0.0 <= r <= 255.0
    ensures 0.0 <= x <= 255.0 ==> r == x
    ensures x <= 0.0 ==> r == 0.0
    ensures 255.0 <= x ==> r == 255.0
  {
    Max(0.0, Min(255.0, x))
  }

  /** The value a `Uint8ClampedArray` keeps when a real is assigned to it:
      saturated at both ends, rounded in between. */
  function Store(round: Rounding, x: real): (r: int)
    ensures IsByte(r)
    ensures 0.0 <= x <= 255.0 ==> x - 1.0 < r as real < x + 1.0
  {
    if x <= 0.0 then 0 else if x >= 255.0 then 255 else round(x)
  }

  /** The new value of one colour byte `v` under brightness `factor`. */
  function Brighten(round: Rounding, v: int, factor: real): (r: int)
    ensures IsByte(r)
    ensures Clamp(v as real * factor) - 1.0 < r as real < Clamp(v as real * factor) + 1.0
  {
    Store(round, Clamp(v as real * factor))
  }

  /** Reference definition of the transform on a flat RGBA array: every colour
      byte brightened, every alpha byte copied. */
  function AdjustData(round: Rounding, data: seq<int>, factor: real): (r: seq<int>)
    ensures |r| == |data|
  {
    seq(|data|, k requires 0 <= k < |data| =>
      if IsAlpha(k) then data[k] else Brighten(round, data[k], factor))
  }

  /** Within pixel `p`, offsets 0, 1 and 2 are colours and offset 3 is alpha. */
  lemma PixelOffsets(p: int)
    ensures !IsAlpha(4 * p) && !IsAlpha(4 * p + 1) && !IsAlpha(4 * p + 2) && IsAlpha(4 * p + 3)
  {
  }

  /** The stride-4 loop of `adjustBrightness`, written over a copy of the
      buffer: offsets i, i+1, i+2 of every pixel are rewritten, i+3 is not. */
  method AdjustPixels(round: Rounding, data: seq<int>, factor: real) returns (out: seq<int>)
    requires |data| % 4 == 0
    ensures |out| == |data|
    ensures forall k :: 0 <= k < |data| && IsAlpha(k) ==> out[k] == data[k]
    ensures forall k :: 0 <= k < |data| && !IsAlpha(k) ==>
      IsByte(out[k]) && out[k] == Brighten(round, data[k], factor)
    ensures out == AdjustData(round, data, factor)
  {
    ghost var want := AdjustData(round, data, factor);
    ghost var pixels := |data| / 4;
    ghost var p := 0;
    out := data;
    var i := 0;
    while i < |out|
      invariant |out| == |data| == 4 * pixels
      invariant 0 <= p <= pixels && i == 4 * p
      invariant forall k :: 0 <= k < i ==> out[k] == want[k]
      invariant forall k :: i <= k < |out| ==> out[k] == data[k]
    {
      PixelOffsets(p);
      out := out[i := Brighten(round, out[i], factor)];
      out := out[i + 1 := Brighten(round, out[i + 1], factor)];
      out := out[i + 2 := Brighten(round, out[i + 2], factor)];
      i := i + 4;
      p := p + 1;
    }
  }

  /** One layer through the temporary canvas: same dimensions, adjusted bytes. */
  function AdjustImage(round: Rounding, img: ImageData, factor: real): (r: ImageData)
    ensures r.width == img.width && r.height == img.height
    ensures |r.data| == |img.data|
    ensures forall k :: 0 <= k < |img.data| && IsAlpha(k) ==> r.data[k] == img.data[k]
    ensures forall k :: 0 <= k < |img.data| && !IsAlpha(k) ==>
      r.data[k] == Brighten(round, img.data[k], factor)
  {
    var d := AdjustData(round, img.data, factor);
    assert forall k :: 0 <= k < |d| ==> IsByte(d[k]);
    Bitmap(img.width, img.height, d)
  }

  /** Storing an integer that is already a byte keeps it exactly. */
  lemma StoreExact(round: Rounding, n: int)
    requires IsByte(n)
    ensures Store(round, n as real) == n
  {
    if 0 < n < 255 {
      assert n as real - 1.0 < round(n as real) as real < n as real + 1.0;
    }
  }

  /** A factor of 1 is the identity on any well-formed buffer. */
  lemma {:induction false} AdjustByOneIsIdentity(round: Rounding, data: seq<int>)
    requires forall k :: 0 <= k < |data| ==> IsByte(data[k])
    ensures AdjustData(round, data, 1.0) == data
  {
    var r := AdjustData(round, data, 1.0);
    forall k | 0 <= k < |data|
      ensures r[k] == data[k]
    {
      if !IsAlpha(k) {
        StoreExact(round, data[k]);
      }
    }
  }

  /** One opaque pixel whose red byte saturates: brightening by 1.2 and then
      darkening by 0.8 does not give the pixel back, and it also differs from
      a single adjustment by the product 0.96 — adjustments compound on the
      already-adjusted bytes, and clamping discards what went over 255. */
  lemma SaturationIsNotInvertible(round: Rounding)
    ensures AdjustData(round, [220, 0, 0, 255], 1.2) == [255, 0, 0, 255]
    ensures AdjustData(round, AdjustData(round, [220, 0, 0, 255], 1.2), 0.8) == [204, 0, 0, 255]
    ensures AdjustData(round, [220, 0, 0, 255], 0.96)[0] in {211, 212}
  {
    var once := AdjustData(round, [220, 0, 0, 255], 1.2);
    assert once[0] == 255 && once[1] == 0 && once[2] == 0 && once[3] == 255;
    var twice := AdjustData(round, once, 0.8);
    StoreExact(round, 204);
    assert twice[0] == 204 && twice[1] == 0 && twice[2] == 0 && twice[3] == 255;
    var direct := AdjustData(round, [220, 0, 0, 255], 0.96);
    assert 211.2 - 1.0 < direct[0] as real < 211.2 + 1.0;
  }

  /** Channel values inside the range are scaled exactly; values pushed past
      255 saturate. */
  lemma ChannelExamples(round: Rounding)
    ensures Brighten(round, 200, 0.8) == 160
    ensures Brighten(round, 200, 1.2) == 240
    ensures Brighten(round, 220, 1.2) == 255
  {
    StoreExact(round, 160);
    StoreExact(round, 240);
  }
}

=== FILE: wrappers.dfy ===
/** Option and Result for the editor model.
    - Option<T>: a value that may be absent (JavaScript `null` / `undefined`)
    - Result<T, E>: a handler that either completes with a new value or throws
 */
module Wrappers {

  /** Some value, or nothing (the JavaScript `null` / `undefined`). */
  datatype Option<+T> = None | Some(value: T)

  /** Either a successful value or the error the handler would throw. */
  datatype Result<+T, +E> = Ok(value: T) | Err(error: E)
}
